=== FILE: README.md ===
# Quiz Master AI: a Dafny model of the quiz session

This project models the session logic of a small React trivia-quiz app. The user enters a topic and a difficulty, and a generative text service returns a batch of multiple-choice questions. The user answers the questions one at a time, confirming each choice, and then sees a scored review. Everything else in the app is rendering.

The model is functional. Each React `useState` becomes a field of an immutable record. Each handler becomes a pure function from state to state. `Math.round` is replaced by integer arithmetic.

| module (file) | models |
|---|---|
| `Wrappers` (wrappers.dfy) | `Option` (JavaScript `null`/`undefined`) and `Result` (a value or a throw) |
| `QuizTypes` (types.dfy) | `Difficulty`, `GameState`, `Question`, `QuizSettings` and `UserAnswer` from types.ts |
| `SetupScreen` (setup_screen.dfy) | JavaScript `trim`, the submit guard, the default difficulty and the difficulty buttons |
| `Generator` (generator.dfy) | how `generateQuiz` handles a reply: reject a missing or empty text, then stamp `id = index` on each record |
| `Session` (session.dfy) | the app component's state and its handlers `handleStartQuiz`, `handleAnswer`, `handleNext`, `handlePlayAgain` and Try Again |
| `QuestionCard` (question_card.dfy) | the card's `selectedOption`/`isConfirmed` state, its handlers, the reset when the question id changes, option styling and the Next label |
| `Results` (results.dfy) | correct count, rounded percentage, banded message and the review lookup by `questionId` |
| `App` (app.dfy) | all of the above as the user drives it: which events each rendered phase offers, and an invariant that holds in every reachable state |

The main results are these:

- `App.ReachableStatesSatisfyInvariant`: in every reachable state, the answers are exactly one record per question answered so far, in question order. While playing, the number of answers is the current index plus one if the card is confirmed. Once finished, there is exactly one answer per question.
- From that invariant, `App.FinishedReviewShowsOwnAnswers` proves that the results screen's `find` returns each question's own answer and that the score lies in [0, 100].

Where the code behaves in a way one might not expect, the model follows the code:

- Try Again only changes the phase. The error message is kept until the next start clears it.
- Generated questions are never checked for four options or for an in-range answer index. The prompt asks for four options (services/geminiService.ts:11), and the schema describes the index as "0-3" (services/geminiService.ts:32), but nothing enforces either.
- A reply with an empty array puts the app into Playing with no questions. The card is not rendered, so nothing can move the app on (`App.EmptyBatchIsStuck`).
- `timeTaken` is always 0.

## Model

| member | source | states |
|---|---|---|
| QuizTypes.DifficultyPosition | components/SetupScreen.tsx:20 | every difficulty of the union in types.ts:11 has exactly one place among the four difficulty buttons |
| QuizTypes.GameStatePosition | types.ts:14 | every phase has exactly one place among the five phases |
| QuizTypes.DifficultyIsClosedSetOfFour | types.ts:11 | there are exactly four difficulties (Easy, Medium, Hard, Expert), pairwise distinct, and every difficulty value is one of them |
| QuizTypes.GameStateIsClosedSetOfFive | types.ts:14 | there are exactly five phases (SETUP, LOADING, PLAYING, FINISHED, ERROR), pairwise distinct, and every phase value is one of them |
| SetupScreen.TrimStart | components/SetupScreen.tsx:15 | the result is a suffix of the input, starts with a non-whitespace character, and everything dropped is whitespace |
| SetupScreen.TrimEnd | components/SetupScreen.tsx:15 | the result is a prefix of the input, ends with a non-whitespace character, and everything dropped is whitespace |
| SetupScreen.Trim | components/SetupScreen.tsx:15 | `trim()` returns the maximal inner slice: everything before and after it is whitespace, its own ends are not, and it is empty exactly when the topic is all whitespace. Whitespace is `IsWhitespace`, the ECMAScript WhiteSpace and LineTerminator characters |
| SetupScreen.HandleSubmit | components/SetupScreen.tsx:13-18 | `onStart` is called exactly when the topic has a character outside `IsWhitespace`, and it gets the original untrimmed topic with the chosen difficulty |
| SetupScreen.SubmitDisabledMatchesGuard | components/SetupScreen.tsx:78 | the submit button's `disabled` flag (`SubmitDisabled`, `!topic.trim()`) is set exactly when `handleSubmit` would not start a quiz |
| SetupScreen.ClickDifficulty | components/SetupScreen.tsx:58-62 | a difficulty button sets that button's difficulty, which is always one of the four, and leaves the topic alone |
| SetupScreen.InitialFormIsMediumAndBlocked | components/SetupScreen.tsx:10-11 | the form starts at Medium with an empty topic, so submit is disabled |
| SetupScreen.TopicGuardExamples | components/SetupScreen.tsx:15-16 | a topic of only whitespace is rejected, and " Jazz " is forwarded with its spaces |
| Generator.Normalize | services/geminiService.ts:50-56 | the output has the same length as the parsed array; element i is `Stamp` of record i (the object literal of the `map` callback, :50-55), so it gets id i; the text, options, answer index and explanation are copied unchanged |
| Generator.Generate | services/geminiService.ts:42-56 | questions are produced exactly when the reply parsed to an array, so no batch is rejected for its content. The result has one question per record, question i has id i, and its text, options, answer index and explanation are record i's. A missing or empty text, a failed call or an unparsable text is an error with no questions |
| Generator.NormalizedIdsAreDistinct | services/geminiService.ts:50-51 | two normalised questions with the same id are the same question |
| Generator.MalformedBatchIsAccepted | services/geminiService.ts:50-56 | one question with two options and answer index 7 is accepted as is, so the answer index is not guaranteed to name an option |
| Session.StartQuiz | index.tsx:19-22 | starting stores the settings, enters LOADING and clears the error. Questions, index and answers are untouched |
| Session.GenerationSettled | index.tsx:24-34 | success stores the questions, sets the index to 0, empties the answers and enters PLAYING. Failure enters ERROR with the fixed non-empty message and touches nothing else |
| Session.HandleStartQuiz | index.tsx:19-35 | after a parsed reply the app is PLAYING with one question per record, the normalized batch itself with ids 0..n-1, index 0, no answers and a cleared error. Any other reply gives ERROR with the failure message and keeps the questions, answers and index |
| Session.HandleAnswer | index.tsx:37-49 | appends exactly one record (`AnswerFor`, index.tsx:41-46) and keeps every earlier record. The new record has the current question's id, the chosen option, `isCorrect` exactly when the option is the answer index, and `timeTaken` 0. Nothing else changes. With no current question the handler throws and nothing is stored |
| Session.HandleNext | index.tsx:51-57 | increments the index when it is below the last position; otherwise sets FINISHED and keeps the index |
| Session.HandlePlayAgain | index.tsx:59-64 | returns to SETUP with no questions, no answers and index 0. Settings and error message are kept |
| Session.TryAgain | index.tsx:105 | only the phase changes, to SETUP. The error message is kept |
| Session.ErrorText | index.tsx:103 | the error view always shows non-empty text: the stored message when there is one |
| Session.NextKeepsIndexInRange | index.tsx:51-57 | for a non-empty question list, `0 <= index < length` is preserved, and the phase becomes FINISHED exactly at the last question |
| Session.ErrorSurvivesRetryUntilRestart | index.tsx:105 | after a failure, Try Again keeps the failure message, and the next start clears it |
| Session.EmptyReplyIsAnError | index.tsx:30-34 | a reply with no text ends in ERROR with a non-empty message |
| Session.AnswerIsNotDeduplicated | index.tsx:37-49 | calling the handler twice, the second time on the state the first left, appends two identical records, because the handler itself does not deduplicate |
| QuestionCard.HandleSelect | components/QuestionCard.tsx:29-32 | selection is ignored once confirmed; otherwise the clicked option becomes the selection |
| QuestionCard.HandleConfirm | components/QuestionCard.tsx:34-38 | a no-op without a selection. Otherwise the card is confirmed and `onAnswer` gets exactly the selected index |
| QuestionCard.OnQuestionId | components/QuestionCard.tsx:24-27 | a new question id resets the card to no selection and unconfirmed; the same id keeps it |
| QuestionCard.CardStep | components/QuestionCard.tsx:84-149 | a confirmed card ignores every action. An option click selects that option exactly when `PickEnabled` (not confirmed, a rendered option, :88). Confirm confirms the card and calls `onAnswer` with the selection exactly when `ConfirmEnabled` (shown and enabled, :139-149). Any other action does nothing. `NextShown` (:112) is the Next control's condition |
| QuestionCard.OnAnswerAtMostOnce | components/QuestionCard.tsx:29-38 | whatever the user clicks on one question, `onAnswer` fires at most once. It has fired exactly when the card ended confirmed, and it received the selected index, which names a rendered option |
| QuestionCard.FreshCardAnswersAtMostOnce | components/QuestionCard.tsx:20-21 | a freshly mounted or reset card fires `onAnswer` at most once |
| QuestionCard.HandlerAloneWouldFireTwice | components/QuestionCard.tsx:34-38 | `handleConfirm` does not check `isConfirmed`. The once-only guarantee comes from hiding the Confirm control |
| QuestionCard.StyleOf | components/QuestionCard.tsx:68-82 | after confirmation each option is exactly one of: correct (it is the answer index), wrong pick (otherwise the selection), or dimmed. Before confirmation only the selection is highlighted |
| QuestionCard.ConfirmedCardMarks | components/QuestionCard.tsx:68-75 | after confirmation exactly one option is marked correct when the answer index names an option, and none otherwise. One option is marked wrong exactly when a different in-range option was picked |
| QuestionCard.FeedbackAgreesWithRecord | components/QuestionCard.tsx:114-118 | the explanation panel's colour test (`FeedbackIsCorrect`, :115) is true exactly when the recorded answer has `isCorrect` |
| QuestionCard.NextLabel | components/QuestionCard.tsx:132 | the button after confirmation reads "Next Question" or "See Results", and "See Results" exactly when the index is at or past `total - 1` |
| QuestionCard.NextLabelAnnouncesFinish | components/QuestionCard.tsx:128-134 | the label is "See Results" exactly at index `total - 1`, which is exactly when pressing it finishes the quiz |
| Results.CorrectCount | components/ResultsScreen.tsx:18 | the count is at most the number of answers; it equals it exactly when all are correct, and it is 0 exactly when none are |
| Results.CorrectCountCountsCorrectAnswers | components/ResultsScreen.tsx:18 | the count equals the number of positions whose answer is flagged correct |
| Results.ScorePercentage | components/ResultsScreen.tsx:19 | with n > 0 questions the score is the half-up rounding of 100·c/n, `(200c + n) div 2n`, and it lies in [0, 100] when c <= n. With no questions it is NaN (c = 0) or Infinity (c > 0) |
| Results.RoundHalfUpIsUnique | components/ResultsScreen.tsx:19 | only one integer is the half-up rounding of a given fraction, so the integer formula is `Math.round` |
| Results.ScoreIsMonotone | components/ResultsScreen.tsx:19 | more correct answers never lower the percentage |
| Results.HalfRoundsUp | components/ResultsScreen.tsx:19 | 1 correct out of 8 (12.5%) is shown as 13 |
| Results.BandOf | components/ResultsScreen.tsx:24-36 | first match from the top: 90 and up is "Quiz Master!", 70 to 89 "Great Job!", 50 to 69 "Good Effort!", below 50 "Keep Learning!". NaN falls through to the last and Infinity takes the first. Each band's text is `Band.Message` (:25-34) |
| Results.BandIsMonotone | components/ResultsScreen.tsx:24-36 | a higher score never yields a lower band |
| Results.BandIsMonotoneInCorrect | components/ResultsScreen.tsx:19-36 | more correct answers out of the same total never yield a lower band |
| Results.TenQuestionBoundaries | components/ResultsScreen.tsx:19-36 | with 10 questions: 9 correct is 90 "Quiz Master!", 8 is 80 "Great Job!", 7 is 70 "Great Job!", 5 is 50 "Good Effort!", 4 is 40 "Keep Learning!" |
| Results.FirstMatchIndex | components/ResultsScreen.tsx:57 | `find` stops at the first answer whose `questionId` matches, and finds nothing exactly when no answer matches |
| Results.PositionalIdsFindOwnAnswer | components/ResultsScreen.tsx:57 | when each answer's id is its position, question id i finds answer i |
| Results.OptionText | components/ResultsScreen.tsx:69 | `q.options[i]` is a string exactly when i names an option, and `undefined` otherwise |
| Results.ReviewOf | components/ResultsScreen.tsx:57-79 | a row uses the first matching answer. With none it is drawn incorrect and has no "You picked" line. Otherwise it is drawn correct exactly when that answer is, and "You picked" shows the text of that answer's option (`undefined` outside the list) exactly when it is incorrect |
| Results.Review | components/ResultsScreen.tsx:56 | one review row per question, in question order |
| Results.Summarize | components/ResultsScreen.tsx:18-36 | the count is the number of correct answers. The score is `ScorePercentage` of that count over the number of questions, and it is a percentage in [0, 100] when there are questions and no more answers than questions. The band is the score's band, and the rows are the review list |
| App.Step | index.tsx:19-64 | every phase change is a lifecycle transition: start, success, failure, finish, play again or retry. Answers grow only on a Confirm while PLAYING, FINISHED is entered only through Next, and Next acts only once the shown card is confirmed. Each available control also acts. The card is on screen exactly when `CardShown` holds (PLAYING with at least one question, index.tsx:78). An enabled option click changes only the card, to the card's own step for that option. A valid submit applies `StartQuiz`: LOADING with the settings and a cleared error, with the card untouched. A reply leaves LOADING through `GenerationSettled` of the generated batch, so a parsed batch is stored as the questions: PLAYING exactly when it parsed, otherwise ERROR. An enabled Confirm appends exactly the current question's record and confirms the card. Next on a confirmed card applies `HandleNext`: it finishes exactly at the last question and otherwise advances the index, and an advancing Next resets the card to fresh when the next question's id differs (components/QuestionCard.tsx:24-27). Play Again and Try Again apply their handlers |
| App.InitialSatisfiesInvariant | index.tsx:12-17 | the initial state (SETUP, empty topic, Medium, nothing loaded, no error) satisfies the invariant |
| App.StepPreservesInvariant | index.tsx:19-64 | each event keeps the invariant: answer j is the record for question j, their count is the index plus one if confirmed, and FINISHED has one answer per question |
| App.RunPreservesInvariant | index.tsx:19-64 | any sequence of events keeps the invariant |
| App.ReachableStatesSatisfyInvariant | index.tsx:12-64 | every state reachable from the initial one satisfies the invariant |
| App.AtMostOneAnswerPerQuestion | index.tsx:37-49 | while PLAYING there are at most index + 1 answers, answer j names question j, and no two answers name the same question |
| App.StepAppendsAtMostOne | index.tsx:37-49 | when the state is PLAYING or FINISHED both before and after, an event keeps all earlier answers and appends at most one, and only on a Confirm when the card was not yet confirmed. Play Again and a new generation, which leave those phases, clear the answers instead |
| App.EmptyBatchIsStuck | index.tsx:78-86 | in PLAYING with no questions the card is not rendered (`CardShown` fails), so no event changes the state |
| App.FinishedReviewShowsOwnAnswers | components/ResultsScreen.tsx:18-79 | on a reachable results screen the score is in [0, 100]. Each question's `find` returns its own answer, its row is correct exactly when its recorded option is the answer index, and it shows "You picked" with the text of its own recorded option exactly when it is not |
| App.ErrorPathRoundTrip | index.tsx:97-111 | an empty reply shows the failure message, Try Again returns to SETUP still holding it, and the next start clears it |

## Left out

- Rendering: JSX, CSS classes, icons, animation, `createRoot` and the progress bar's percentage (components/QuestionCard.tsx:40), which is a float used only for styling.
- The generation service call, its prompt and its response schema (services/geminiService.ts:4-40), and `JSON.parse`. They are foreign code. A reply is an input, `Generator.Reply`: the call threw, no text, unparsable text, or a parsed array of records.
- Array elements whose schema fields are missing or mistyped. The model's raw record always has the four fields. For an element that is an object without a field, the JavaScript copies `undefined` through. An element that is `null` makes the `map` throw, and that reply is modelled as the `Unparsable` case of `Generator.Reply`, which ends in ERROR like any other failure.
- The `await` in `handleStartQuiz`. Generation is one atomic event from LOADING, so a late reply arriving after the user has left LOADING is not modelled.
- components/LoadingScreen.tsx: a timer-driven rotating tip with no effect on the session.
- `console.error` logging.
- The one render between a question change and the card-reset effect. `App.Step` applies the reset in the same step as the move to the next question, and its contract states that an advancing Next leaves a fresh card.
- Results.ScorePercentage: rounds the exact fraction 100·c/n. The JavaScript first computes `(c / n) * 100` in double precision, so a fraction exactly halfway between two integers may come out a hair low and round down. This differs at most on exact halves and never for 10 questions.
- React's batching of state updates. Each handler call sees the state the previous event left. Two calls of `handleAnswer` inside one render would both read the same `userAnswers` closure and leave one record; the rendered controls never do that.
- What React does after a handler throws. `Session.HandleAnswer` reports the throw as a failure and stores nothing.

=== FILE: app.dfy ===
/** The app as the user drives it: the session, the question card mounted while
    playing, and the events the rendered screen makes available in each phase. */
module App {
  import opened Wrappers
  import opened QuizTypes
  import opened SetupScreen
  import opened Generator
  import opened Session
  import opened QuestionCard
  import opened Results

  /** The session plus the local state of the question card. */
  datatype AppState = AppState(session: Session, card: Card)

  const InitialApp: AppState := AppState(InitialSession, FreshCard)

  /** What can happen to the app: a user action on the rendered screen, or the
      generation request settling. */
  datatype Event =
    | Submit(form: SetupForm)
    | GenerationReply(reply: Reply)
    | SelectOption(index: int)
    | ConfirmAnswer
    | NextQuestion
    | PlayAgain
    | RetryAfterError

  /** The question card is rendered: Playing with at least one question. */
  predicate CardShown(s: Session) {
    s.phase == Playing && |s.questions| > 0
  }

  /** The phase changes the app allows: start, generation success or failure,
      finishing the last question, playing again, and retrying after an error. */
  predicate Transition(from: GameState, to: GameState) {
    || (from == Setup && to == Loading)
    || (from == Loading && (to == Playing || to == Error))
    || (from == Playing && to == Finished)
    || (from == Finished && to == Setup)
    || (from == Error && to == Setup)
  }

  /** The effect of one event. An event whose control is not on screen in the
      current phase changes nothing; every phase change is an allowed transition,
      only a Playing state can gain an answer, and Next does something only
      once the shown card is confirmed. */
  function Step(a: AppState, ev: Event): (r: AppState)
    ensures r.session.phase == a.session.phase || Transition(a.session.phase, r.session.phase)
    ensures |r.session.userAnswers| > |a.session.userAnswers| ==>
      a.session.phase == Playing && r.session.phase == Playing && ev == ConfirmAnswer
    ensures r.session.phase == Finished && a.session.phase != Finished ==> ev == NextQuestion
    ensures ev == NextQuestion && r != a ==> CardShown(a.session) && a.card.isConfirmed
    // What each available control does.
    ensures ev.Submit? && a.session.phase == Setup && HandleSubmit(ev.form).Some? ==>
      && r.session.phase == Loading && r.session.settings == HandleSubmit(ev.form).value && r.session.error == ""
      && r == a.(session := StartQuiz(a.session, HandleSubmit(ev.form).value))
    ensures ev.GenerationReply? && a.session.phase == Loading ==>
      && (r.session.phase == Playing <==> ev.reply.Parsed?) && (r.session.phase == Error <==> !ev.reply.Parsed?)
      && r.session == GenerationSettled(a.session, Generate(ev.reply))
      && r.card == FreshCard
    ensures (ev == ConfirmAnswer && CardShown(a.session) && ConfirmEnabled(a.card)
             && 0 <= a.session.currentQuestionIndex < |a.session.questions|) ==>
      && r.card.isConfirmed && r.card.selectedOption == a.card.selectedOption
      && r.session.userAnswers == a.session.userAnswers
           + [AnswerFor(a.session.questions[a.session.currentQuestionIndex], a.card.selectedOption.value)]
    ensures (ev == NextQuestion && CardShown(a.session) && NextShown(a.card)
             && 0 <= a.session.currentQuestionIndex < |a.session.questions|) ==>
      && (r.session.phase == Finished <==> a.session.currentQuestionIndex == |a.session.questions| - 1)
      && (r.session.phase == Playing ==> r.session.currentQuestionIndex == a.session.currentQuestionIndex + 1)
      && r.session == HandleNext(a.session)
      && (r.session.phase == Playing
          && a.session.questions[a.session.currentQuestionIndex].id != a.session.questions[a.session.currentQuestionIndex + 1].id
          ==> r.card == FreshCard)
      && (r.session.phase == Finished ==> r.card == a.card)
    ensures (ev.SelectOption? && CardShown(a.session)
             && 0 <= a.session.currentQuestionIndex < |a.session.questions|) ==>
      r == a.(card := CardStep(a.card, a.session.questions[a.session.currentQuestionIndex], Pick(ev.index)).0)
    ensures ev == PlayAgain && a.session.phase == Finished ==> r.session == HandlePlayAgain(a.session)
    ensures ev == RetryAfterError && a.session.phase == Error ==> r.session == TryAgain(a.session)
  {
    var s := a.session;
    match ev
    case Submit(form) =>
      if s.phase != Setup then a
      else (match HandleSubmit(form)
        case None => a
        case Some(settings) => a.(session := StartQuiz(s, settings)))
    case GenerationReply(reply) =>
      if s.phase != Loading then a
      else AppState(GenerationSettled(s, Generate(reply)), FreshCard)
    case SelectOption(index) =>
      if !CardShown(s) || !(0 <= s.currentQuestionIndex < |s.questions|) then a
      else a.(card := CardStep(a.card, s.questions[s.currentQuestionIndex], Pick(index)).0)
    case ConfirmAnswer =>
      if !CardShown(s) || !(0 <= s.currentQuestionIndex < |s.questions|) then a
      else
        var (card, fired) := CardStep(a.card, s.questions[s.currentQuestionIndex], Confirm);
        if fired.None? then a.(card := card)
        else (match HandleAnswer(s, fired.value)
          case Success(s') => AppState(s', card)
          case Failure(_) => a.(card := card))
    case NextQuestion =>
      if !CardShown(s) || !NextShown(a.card) || !(0 <= s.currentQuestionIndex < |s.questions|) then a
      else
        var s' := HandleNext(s);
        if s'.phase == Playing then
          AppState(s', OnQuestionId(a.card, s.questions[s.currentQuestionIndex].id,
                                    s.questions[s'.currentQuestionIndex].id))
        else a.(session := s')
    case PlayAgain =>
      if s.phase != Finished then a else a.(session := HandlePlayAgain(s))
    case RetryAfterError =>
      if s.phase != Error then a else a.(session := TryAgain(s))
  }

  /** The state after a sequence of events. */
  function Run(a: AppState, evs: seq<Event>): AppState
    decreases |evs|
  {
    if evs == [] then a else Run(Step(a, evs[0]), evs[1..])
  }

  /** Answer `j` is the record `handleAnswer` makes for question `j`. */
  ghost predicate Recorded(questions: seq<Question>, answers: seq<UserAnswer>) {
    && |answers| <= |questions|
    && forall j :: 0 <= j < |answers| ==> answers[j] == AnswerFor(questions[j], answers[j].selectedOptionIndex)
  }

  /** What holds of every state the app can reach. */
  ghost predicate Invariant(a: AppState) {
    var s := a.session;
    && WellFormed(a.card)
    && (s.phase == Setup || s.phase == Loading || s.phase == Error ==>
          s.questions == [] && s.userAnswers == [] && s.currentQuestionIndex == 0)
    && (s.error == "" || s.error == FailureMessage)
    && (s.phase == Loading ==> s.error == "")
    && (s.phase == Error ==> s.error == FailureMessage)
    && (s.phase == Playing || s.phase == Finished ==>
          IdsArePositions(s.questions) && Recorded(s.questions, s.userAnswers))
    && (s.phase == Playing ==>
          && (if |s.questions| == 0 then s.currentQuestionIndex == 0
              else 0 <= s.currentQuestionIndex < |s.questions|)
          && |s.userAnswers| == s.currentQuestionIndex + (if a.card.isConfirmed then 1 else 0))
    && (s.phase == Finished ==> |s.questions| > 0 && |s.userAnswers| == |s.questions|)
  }

  lemma InitialSatisfiesInvariant()
    ensures Invariant(InitialApp)
  {
  }

  /** Every event preserves the invariant. */
  lemma StepPreservesInvariant(a: AppState, ev: Event)
    requires Invariant(a)
    ensures Invariant(Step(a, ev))
  {
    var s := a.session;
    match ev
    case ConfirmAnswer =>
      if CardShown(s) && 0 <= s.currentQuestionIndex < |s.questions| {
        var (card, fired) := CardStep(a.card, s.questions[s.currentQuestionIndex], Confirm);
        if fired.Some? {
          var s' := HandleAnswer(s, fired.value).value;
          assert forall j :: 0 <= j < |s.userAnswers| ==> s'.userAnswers[j] == s.userAnswers[j];
        }
      }
    case NextQuestion =>
      if CardShown(s) && NextShown(a.card) && 0 <= s.currentQuestionIndex < |s.questions| {
        var s' := HandleNext(s);
        if s'.phase == Playing {
          assert s.questions[s.currentQuestionIndex].id != s.questions[s'.currentQuestionIndex].id;
        }
      }
    case _ =>
  }

  /** The invariant holds after any sequence of events from a state that has it. */
  lemma {:induction false} RunPreservesInvariant(a: AppState, evs: seq<Event>)
    requires Invariant(a)
    ensures Invariant(Run(a, evs))
    decreases |evs|
  {
    if evs != [] {
      StepPreservesInvariant(a, evs[0]);
      RunPreservesInvariant(Step(a, evs[0]), evs[1..]);
    }
  }

  /** Every reachable state satisfies the invariant. */
  lemma ReachableStatesSatisfyInvariant(evs: seq<Event>)
    ensures Invariant(Run(InitialApp, evs))
  {
    RunPreservesInvariant(InitialApp, evs);
  }

  /** While playing, each question has at most one answer: answers follow the
      questions in order, there is at most one beyond the answered ones, and no
      two answers name the same question. */
  lemma AtMostOneAnswerPerQuestion(a: AppState)
    requires Invariant(a) && a.session.phase == Playing
    ensures |a.session.userAnswers| <= a.session.currentQuestionIndex + 1
    ensures forall j :: 0 <= j < |a.session.userAnswers| ==>
      a.session.userAnswers[j].questionId == a.session.questions[j].id == j
    ensures forall i, j ::
      (0 <= i < |a.session.userAnswers| && 0 <= j < |a.session.userAnswers| &&
       a.session.userAnswers[i].questionId == a.session.userAnswers[j].questionId) ==> i == j
  {
    var answers := a.session.userAnswers;
    assert forall j :: 0 <= j < |answers| ==> answers[j].questionId == a.session.questions[j].id;
  }

  /** An event appends at most one answer and never rewrites earlier ones. */
  lemma StepAppendsAtMostOne(a: AppState, ev: Event)
    requires Invariant(a)
    requires Step(a, ev).session.phase == Playing || Step(a, ev).session.phase == Finished
    requires a.session.phase == Playing || a.session.phase == Finished
    ensures var before := a.session.userAnswers;
      var after := Step(a, ev).session.userAnswers;
      && |before| <= |after| <= |before| + 1
      && after[..|before|] == before
      && (|after| == |before| + 1 ==> ev == ConfirmAnswer && !a.card.isConfirmed)
  {
  }

  /** A batch with no questions leaves the app in Playing with nothing on screen:
      no event can move it on. */
  lemma EmptyBatchIsStuck(a: AppState, ev: Event)
    requires Invariant(a) && a.session.phase == Playing && a.session.questions == []
    ensures Step(a, ev) == a
  {
  }

  /** On the results screen every question has exactly its own answer: the score
      is a percentage in [0, 100], each review row reflects the answer recorded
      for that question, and "You picked" shows that answer's option when wrong. */
  lemma FinishedReviewShowsOwnAnswers(a: AppState)
    requires Invariant(a) && a.session.phase == Finished
    ensures var s := a.session;
      var sm := Summarize(s.questions, s.userAnswers);
      && sm.score.Percent? && 0 <= sm.score.value <= 100
      && forall i :: 0 <= i < |s.questions| ==>
          && FirstMatchIndex(s.userAnswers, s.questions[i].id) == Some(i)
          && (sm.rows[i].markedCorrect <==> s.userAnswers[i].selectedOptionIndex == s.questions[i].correctAnswerIndex)
          && (sm.rows[i].youPicked.Some? <==> s.userAnswers[i].selectedOptionIndex != s.questions[i].correctAnswerIndex)
          && (sm.rows[i].youPicked.Some? ==>
                sm.rows[i].youPicked.value == OptionText(s.questions[i], s.userAnswers[i].selectedOptionIndex))
  {
    var s := a.session;
    forall i | 0 <= i < |s.questions|
      ensures FirstMatchIndex(s.userAnswers, s.questions[i].id) == Some(i)
    {
      assert forall j :: 0 <= j < |s.userAnswers| ==> s.userAnswers[j].questionId == s.questions[j].id;
      PositionalIdsFindOwnAnswer(s.userAnswers, i);
    }
  }

  /** The error path: a failed generation shows the fixed message; Try Again
      returns to Setup still holding it; the next start clears it. */
  lemma ErrorPathRoundTrip(a: AppState, form: SetupForm)
    requires Invariant(a) && a.session.phase == Loading
    requires HandleSubmit(form).Some?
    ensures var failed := Step(a, GenerationReply(NoText));
      var retried := Step(failed, RetryAfterError);
      var restarted := Step(retried, Submit(form));
      && failed.session.phase == Error && ErrorText(failed.session) == FailureMessage
      && retried.session.phase == Setup && retried.session.error == FailureMessage
      && restarted.session.phase == Loading && restarted.session.error == ""
  {
  }
}

=== FILE: generator.dfy ===
/** The post-response half of quiz generation: reject an unusable reply, then
    stamp each parsed record with its position as its id. */
module Generator {
  import opened Wrappers
  import opened QuizTypes

  /** One element of the parsed JSON array, with the four schema fields. */
  datatype RawQuestion = RawQuestion(
    questionText: string,
    options: seq<string>,
    correctAnswerIndex: int,
    explanation: string)

  /** What the generation service hands back, as far as the app can tell it apart. */
  datatype Reply =
    | CallFailed                        // the SDK call itself threw
    | NoText                            // `response.text` is undefined or ""
    | Unparsable                        // `JSON.parse` threw, or the result is not an
                                        // array, or an element is `null` (the `map` throws)
    | Parsed(records: seq<RawQuestion>) // the text parsed to an array of records

  /** Why a generation attempt produced no questions. */
  datatype GenerationError = RequestFailed | EmptyResponse | ParseFailed

  /** The record built for the element at `index`: the fields copied, `id := index`. */
  function Stamp(raw: RawQuestion, index: int): Question {
    Question(index, raw.questionText, raw.options, raw.correctAnswerIndex, raw.explanation)
  }

  /** The ids of `qs` are exactly their positions `0 .. |qs|-1`. */
  ghost predicate IdsArePositions(qs: seq<Question>) {
    forall i :: 0 <= i < |qs| ==> qs[i].id == i
  }

  /** `raws.map((q, index) => ({ id: index, ... }))`: same length, element `i` gets
      id `i`, and every other field is the parsed element's, unchanged. */
  function Normalize(raws: seq<RawQuestion>): (qs: seq<Question>)
    ensures |qs| == |raws|
    ensures IdsArePositions(qs)
    ensures forall i :: 0 <= i < |qs| ==>
      && qs[i].questionText == raws[i].questionText
      && qs[i].options == raws[i].options
      && qs[i].correctAnswerIndex == raws[i].correctAnswerIndex
      && qs[i].explanation == raws[i].explanation
  {
    if raws == [] then [] else Normalize(raws[..|raws| - 1]) + [Stamp(raws[|raws| - 1], |raws| - 1)]
  }

  /** The reply handling of `generateQuiz`: a parsed array always yields its
      normalised questions; anything else is an error and yields none. */
  function Generate(reply: Reply): (r: Result<seq<Question>, GenerationError>)
    ensures r.Success? <==> reply.Parsed?
    ensures reply.NoText? ==> r == Failure(EmptyResponse)
    ensures reply.CallFailed? ==> r == Failure(RequestFailed)
    ensures reply.Unparsable? ==> r == Failure(ParseFailed)
    ensures r.Success? ==> |r.value| == |reply.records| && IdsArePositions(r.value)
    ensures r.Success? ==> forall i :: 0 <= i < |r.value| ==>
      && r.value[i].questionText == reply.records[i].questionText
      && r.value[i].options == reply.records[i].options
      && r.value[i].correctAnswerIndex == reply.records[i].correctAnswerIndex
      && r.value[i].explanation == reply.records[i].explanation
  {
    match reply
    case CallFailed => Failure(RequestFailed)
    case NoText => Failure(EmptyResponse)
    case Unparsable => Failure(ParseFailed)
    case Parsed(records) => Success(Normalize(records))
  }

  /** Normalised ids are pairwise distinct, so an id names exactly one question. */
  lemma NormalizedIdsAreDistinct(raws: seq<RawQuestion>)
    ensures forall i, j :: 0 <= i < |raws| && 0 <= j < |raws| && Normalize(raws)[i].id == Normalize(raws)[j].id ==> i == j
  {
  }

  /** A concrete batch the prompt forbids (two options, answer index 7, one question
      rather than ten) passes through untouched, out-of-range index included. */
  lemma MalformedBatchIsAccepted()
    ensures var r := Generate(Parsed([RawQuestion("Q", ["a", "b"], 7, "E")]));
      && r == Success([Question(0, "Q", ["a", "b"], 7, "E")])
      && !(0 <= r.value[0].correctAnswerIndex < |r.value[0].options|)
  {
    var raws := [RawQuestion("Q", ["a", "b"], 7, "E")];
    assert raws[..|raws| - 1] == [];
    assert Normalize(raws) == [Stamp(raws[0], 0)];
    assert Generate(Parsed(raws)) == Success([Question(0, "Q", ["a", "b"], 7, "E")]);
  }
}

=== FILE: question_card.dfy ===
/** The question card's local state: which option is selected and whether the
    choice is confirmed, plus what the card shows and which controls it offers. */
module QuestionCard {
  import opened Wrappers
  import opened QuizTypes
  import opened Session

  /** `selectedOption` (null as `None`) and `isConfirmed`. */
  datatype Card = Card(selectedOption: Option<int>, isConfirmed: bool)

  /** The state a card starts in and is reset to: nothing selected, not confirmed. */
  const FreshCard: Card := Card(None, false)

  /** A confirmed card always has a selection. */
  ghost predicate WellFormed(c: Card) {
    c.isConfirmed ==> c.selectedOption.Some?
  }

  /** `handleSelect`: ignored once confirmed, otherwise the clicked option becomes the selection. */
  function HandleSelect(c: Card, index: int): (r: Card)
    ensures c.isConfirmed ==> r == c
    ensures !c.isConfirmed ==> r.selectedOption == Some(index) && !r.isConfirmed
  {
    if c.isConfirmed then c else c.(selectedOption := Some(index))
  }

  /** `handleConfirm`: a no-op without a selection; otherwise the card becomes
      confirmed and `onAnswer` is called (the second component) with exactly the
      selected index. The handler does not look at `isConfirmed` itself. */
  function HandleConfirm(c: Card): (r: (Card, Option<int>))
    ensures c.selectedOption.None? ==> r == (c, None)
    ensures c.selectedOption.Some? ==>
      && r.0.isConfirmed && r.0.selectedOption == c.selectedOption
      && r.1 == c.selectedOption
  {
    if c.selectedOption.None? then (c, None) else (c.(isConfirmed := true), c.selectedOption)
  }

  /** The effect keyed on `question.id`: a different id resets the card. */
  function OnQuestionId(c: Card, previousId: int, currentId: int): (r: Card)
    ensures previousId != currentId ==> r == FreshCard
    ensures previousId == currentId ==> r == c
  {
    if previousId != currentId then FreshCard else c
  }

  /** Option buttons respond only before confirmation, and only for rendered options. */
  predicate PickEnabled(c: Card, q: Question, index: int) {
    !c.isConfirmed && 0 <= index < |q.options|
  }

  /** The Confirm button exists before confirmation and is enabled once something is selected. */
  predicate ConfirmEnabled(c: Card) {
    !c.isConfirmed && c.selectedOption.Some?
  }

  /** The Next / See Results button exists only after confirmation. */
  predicate NextShown(c: Card) {
    c.isConfirmed
  }

  /** What the user can do on the card. */
  datatype CardEvent = Pick(index: int) | Confirm

  /** One user action on the rendered card; an action whose control is absent or
      disabled changes nothing. The second component is the `onAnswer` call, if any. */
  function CardStep(c: Card, q: Question, ev: CardEvent): (r: (Card, Option<int>))
    ensures r.1.Some? ==> ev == Confirm && !c.isConfirmed && r.0.isConfirmed && r.0.selectedOption == r.1
    ensures c.isConfirmed ==> r == (c, None)
    ensures ev.Pick? && PickEnabled(c, q, ev.index) ==> r == (Card(Some(ev.index), false), None)
    ensures ev.Pick? && !PickEnabled(c, q, ev.index) ==> r == (c, None)
    ensures ev == Confirm && ConfirmEnabled(c) ==> r == (c.(isConfirmed := true), c.selectedOption)
    ensures ev == Confirm && !ConfirmEnabled(c) ==> r == (c, None)
    ensures WellFormed(c) ==> WellFormed(r.0)
  {
    match ev
    case Pick(index) => if PickEnabled(c, q, index) then (HandleSelect(c, index), None) else (c, None)
    case Confirm => if ConfirmEnabled(c) then HandleConfirm(c) else (c, None)
  }

  /** The `onAnswer` calls made by a run of card actions, in order, and the final card. */
  function RunCard(c: Card, q: Question, evs: seq<CardEvent>): (Card, seq<int>)
    decreases |evs|
  {
    if evs == [] then (c, [])
    else
      var (c1, fired) := CardStep(c, q, evs[0]);
      var (c2, later) := RunCard(c1, q, evs[1..]);
      (c2, (if fired.Some? then [fired.value] else []) + later)
  }

  /** Within one question, whatever the user clicks, `onAnswer` fires at most once;
      it has fired exactly when the card ended confirmed, and with the index
      that card shows as selected, which is one of the question's options. */
  lemma {:induction false} OnAnswerAtMostOnce(c: Card, q: Question, evs: seq<CardEvent>)
    requires WellFormed(c)
    requires c.selectedOption.Some? ==> 0 <= c.selectedOption.value < |q.options|
    ensures var (last, fired) := RunCard(c, q, evs);
      && |fired| <= (if c.isConfirmed then 0 else 1)
      && (|fired| == 1 ==> last.isConfirmed && last.selectedOption == Some(fired[0]) && 0 <= fired[0] < |q.options|)
      && (!c.isConfirmed ==> (|fired| == 1 <==> last.isConfirmed))
      && (c.isConfirmed ==> last == c && fired == [])
      && WellFormed(last)
    decreases |evs|
  {
    if evs != [] {
      var (c1, f1) := CardStep(c, q, evs[0]);
      OnAnswerAtMostOnce(c1, q, evs[1..]);
    }
  }

  /** A fresh card fires `onAnswer` at most once, whatever happens on it. */
  lemma FreshCardAnswersAtMostOnce(q: Question, evs: seq<CardEvent>)
    ensures |RunCard(FreshCard, q, evs).1| <= 1
  {
    OnAnswerAtMostOnce(FreshCard, q, evs);
  }

  /** The once-only guarantee comes from the rendering, not the handler: called
      directly on a confirmed card, `handleConfirm` would call `onAnswer` again. */
  lemma HandlerAloneWouldFireTwice(k: int)
    ensures var (c1, first) := HandleConfirm(Card(Some(k), false));
      var (_, second) := HandleConfirm(c1);
      first == Some(k) && second == Some(k)
  {
  }

  /** How an option button is drawn. */
  datatype OptionStyle = MarkedCorrect | MarkedWrong | Dimmed | Chosen | Idle

  /** The classification of option `index`: after confirmation the answer is
      marked correct, otherwise the selected option is marked wrong and the rest
      are dimmed; before confirmation only the selection is highlighted. */
  function StyleOf(c: Card, q: Question, index: int): (st: OptionStyle)
    ensures c.isConfirmed ==> (st == MarkedCorrect <==> index == q.correctAnswerIndex)
    ensures c.isConfirmed ==> (st == MarkedWrong <==> index != q.correctAnswerIndex && c.selectedOption == Some(index))
    ensures c.isConfirmed ==> (st == Dimmed <==> index != q.correctAnswerIndex && c.selectedOption != Some(index))
    ensures !c.isConfirmed ==> (st == Chosen <==> c.selectedOption == Some(index))
    ensures !c.isConfirmed ==> (st == Idle <==> c.selectedOption != Some(index))
  {
    if c.isConfirmed then
      if index == q.correctAnswerIndex then MarkedCorrect
      else if c.selectedOption == Some(index) then MarkedWrong
      else Dimmed
    else if c.selectedOption == Some(index) then Chosen
    else Idle
  }

  /** How many of the options `0 .. n-1` are drawn in style `st`. */
  function CountStyle(c: Card, q: Question, st: OptionStyle, n: nat): nat {
    if n == 0 then 0 else CountStyle(c, q, st, n - 1) + (if StyleOf(c, q, n - 1) == st then 1 else 0)
  }

  /** Among the first `n` options, exactly those equal to `target` are counted. */
  lemma {:induction false} CountOfSingleTarget(c: Card, q: Question, st: OptionStyle, n: nat, target: int)
    requires forall i :: 0 <= i < n ==> (StyleOf(c, q, i) == st <==> i == target)
    ensures CountStyle(c, q, st, n) == (if 0 <= target < n then 1 else 0)
  {
    if n > 0 {
      CountOfSingleTarget(c, q, st, n - 1, target);
    }
  }

  /** After confirmation exactly one option is marked correct when the answer index
      names an option and none otherwise; one option is marked wrong exactly when
      the confirmed pick is an option other than the answer. */
  lemma ConfirmedCardMarks(c: Card, q: Question)
    requires c.isConfirmed && c.selectedOption.Some?
    ensures CountStyle(c, q, MarkedCorrect, |q.options|) == (if 0 <= q.correctAnswerIndex < |q.options| then 1 else 0)
    ensures var pick := c.selectedOption.value;
      CountStyle(c, q, MarkedWrong, |q.options|) == (if pick != q.correctAnswerIndex && 0 <= pick < |q.options| then 1 else 0)
  {
    CountOfSingleTarget(c, q, MarkedCorrect, |q.options|, q.correctAnswerIndex);
    var pick := c.selectedOption.value;
    if pick != q.correctAnswerIndex {
      CountOfSingleTarget(c, q, MarkedWrong, |q.options|, pick);
    } else {
      CountOfSingleTarget(c, q, MarkedWrong, |q.options|, -1);
    }
  }

  /** The explanation panel is drawn green exactly when the recorded answer is correct. */
  function FeedbackIsCorrect(c: Card, q: Question): bool {
    c.selectedOption == Some(q.correctAnswerIndex)
  }

  /** The panel's colour agrees with the correctness flag `handleAnswer` records. */
  lemma FeedbackAgreesWithRecord(c: Card, q: Question)
    requires c.selectedOption.Some?
    ensures FeedbackIsCorrect(c, q) == AnswerFor(q, c.selectedOption.value).isCorrect
  {
  }

  /** The label of the button shown after confirmation. */
  function NextLabel(currentQuestionIndex: int, totalQuestions: int): (caption: string)
    ensures caption == "Next Question" || caption == "See Results"
    ensures caption == "See Results" <==> currentQuestionIndex >= totalQuestions - 1
  {
    if currentQuestionIndex < totalQuestions - 1 then "Next Question" else "See Results"
  }

  /** On a playable question the label reads "See Results" exactly at the last
      question, which is exactly when pressing it finishes the quiz. */
  lemma NextLabelAnnouncesFinish(s: Session)
    requires s.phase == Playing && 0 <= s.currentQuestionIndex < |s.questions|
    ensures NextLabel(s.currentQuestionIndex, |s.questions|) == "See Results"
      <==> s.currentQuestionIndex == |s.questions| - 1
    ensures NextLabel(s.currentQuestionIndex, |s.questions|) == "See Results"
      <==> HandleNext(s).phase == Finished
  {
  }
}

=== FILE: results.dfy ===
/** The results screen: how many answers were correct, the rounded percentage,
    the headline band, and the per-question review rows. */
module Results {
  import opened Wrappers
  import opened QuizTypes

  /** `userAnswers.filter(a => a.isCorrect).length`. */
  function CorrectCount(answers: seq<UserAnswer>): (c: nat)
    ensures c <= |answers|
    ensures c == |answers| <==> forall i :: 0 <= i < |answers| ==> answers[i].isCorrect
    ensures c == 0 <==> forall i :: 0 <= i < |answers| ==> !answers[i].isCorrect
  {
    if answers == [] then 0
    else CorrectCount(answers[..|answers| - 1]) + (if answers[|answers| - 1].isCorrect then 1 else 0)
  }

  /** The positions of the answers flagged correct. */
  ghost function CorrectPositions(answers: seq<UserAnswer>): set<nat> {
    set i: nat | i < |answers| && answers[i].isCorrect
  }

  /** The count is the number of positions holding a correct answer. */
  lemma {:induction false} CorrectCountCountsCorrectAnswers(answers: seq<UserAnswer>)
    ensures CorrectCount(answers) == |CorrectPositions(answers)|
  {
    if answers != [] {
      var n := |answers| - 1;
      var prefix := answers[..n];
      CorrectCountCountsCorrectAnswers(prefix);
      if answers[n].isCorrect {
        assert CorrectPositions(answers) == CorrectPositions(prefix) + {n};
      } else {
        assert CorrectPositions(answers) == CorrectPositions(prefix);
      }
    }
  }

  /** `Math.round((correct / total) * 100)`: a whole percentage when there are
      questions; with none, `0 / 0` is NaN and `c / 0` is Infinity. */
  datatype Score = Percent(value: int) | NotANumber | Infinite

  /** `r` is 100·c/n rounded to the nearest integer with halves going up:
      r - 1/2 <= 100·c/n < r + 1/2, multiplied through by 2n. */
  ghost predicate IsRoundHalfUp(r: int, correct: nat, total: nat) {
    2 * total * r <= 200 * correct + total < 2 * total * (r + 1)
  }

  /** Only one integer is the half-up rounding of a given fraction. */
  lemma RoundHalfUpIsUnique(r1: int, r2: int, correct: nat, total: nat)
    requires total > 0 && IsRoundHalfUp(r1, correct, total) && IsRoundHalfUp(r2, correct, total)
    ensures r1 == r2
  {
    MulLeftStrictCancel(2 * total, r1, r2 + 1);
    MulLeftStrictCancel(2 * total, r2, r1 + 1);
  }

  /** A positive factor can be cancelled from a strict inequality. */
  lemma MulLeftStrictCancel(k: int, a: int, b: int)
    requires k > 0 && k * a < k * b
    ensures a < b
  {
    assert k * (b - a) > 0;
  }

  /** The score shown: the half-up rounded percentage, computed in integers as
      (200·c + n) div 2n; between 0 and 100 whenever c <= n. */
  function ScorePercentage(correct: nat, total: nat): (sc: Score)
    ensures total == 0 ==> (sc == NotANumber <==> correct == 0) && (sc == Infinite <==> correct > 0)
    ensures total > 0 ==> sc.Percent? && IsRoundHalfUp(sc.value, correct, total)
    ensures total > 0 && correct <= total ==> 0 <= sc.value <= 100
  {
    if total == 0 then
      if correct == 0 then NotANumber else Infinite
    else
      var p := (200 * correct + total) / (2 * total);
      RoundedPercentFacts(correct, total, p);
      Percent(p)
  }

  /** Euclidean division by a positive divisor brackets the dividend. */
  lemma DivBounds(a: nat, d: int, q: int)
    requires d > 0 && q == a / d
    ensures d * q <= a < d * (q + 1)
    ensures q >= 0
  {
    assert a == d * q + a % d;
  }

  /** The integer quotient is the half-up rounding, and lies in [0, 100] when c <= n. */
  lemma RoundedPercentFacts(correct: nat, total: nat, p: int)
    requires total > 0 && p == (200 * correct + total) / (2 * total)
    ensures IsRoundHalfUp(p, correct, total) && p >= 0
    ensures correct <= total ==> p <= 100
  {
    DivBounds(200 * correct + total, 2 * total, p);
    if correct <= total {
      DivAtMost(200 * correct + total, 2 * total, p, 100);
    }
  }

  /** A quotient of a dividend below d·(m+1) is at most m. */
  lemma DivAtMost(a: nat, d: int, q: int, m: int)
    requires d > 0 && q == a / d && a < d * (m + 1)
    ensures q <= m
  {
    DivBounds(a, d, q);
    MulLeftStrictCancel(d, q, m + 1);
  }

  /** More correct answers never lower the percentage. */
  lemma ScoreIsMonotone(c1: nat, c2: nat, total: nat)
    requires total > 0 && c1 <= c2
    ensures ScorePercentage(c1, total).value <= ScorePercentage(c2, total).value
  {
    var r1 := ScorePercentage(c1, total).value;
    var r2 := ScorePercentage(c2, total).value;
    MulLeftStrictCancel(2 * total, r1, r2 + 1);
  }

  /** The four headline messages. */
  datatype Band = QuizMaster | GreatJob | GoodEffort | KeepLearning {
    function Message(): string {
      match this
      case QuizMaster => "Quiz Master!"
      case GreatJob => "Great Job!"
      case GoodEffort => "Good Effort!"
      case KeepLearning => "Keep Learning!"
    }

    /** Higher is better. */
    function Rank(): nat {
      match this
      case QuizMaster => 3
      case GreatJob => 2
      case GoodEffort => 1
      case KeepLearning => 0
    }
  }

  /** The band picked by the first threshold the score reaches, checked from 90
      down; NaN reaches none of them and Infinity reaches the first. */
  function BandOf(sc: Score): (b: Band)
    ensures sc.Percent? ==> (b == QuizMaster <==> sc.value >= 90)
    ensures sc.Percent? ==> (b == GreatJob <==> 70 <= sc.value < 90)
    ensures sc.Percent? ==> (b == GoodEffort <==> 50 <= sc.value < 70)
    ensures sc.Percent? ==> (b == KeepLearning <==> sc.value < 50)
    ensures sc == NotANumber ==> b == KeepLearning
    ensures sc == Infinite ==> b == QuizMaster
  {
    match sc
    case Percent(p) =>
      if p >= 90 then QuizMaster
      else if p >= 70 then GreatJob
      else if p >= 50 then GoodEffort
      else KeepLearning
    case NotANumber => KeepLearning
    case Infinite => QuizMaster
  }

  /** A higher score never yields a lower band. */
  lemma BandIsMonotone(p1: int, p2: int)
    requires p1 <= p2
    ensures BandOf(Percent(p1)).Rank() <= BandOf(Percent(p2)).Rank()
  {
  }

  /** More correct answers never yield a lower band. */
  lemma BandIsMonotoneInCorrect(c1: nat, c2: nat, total: nat)
    requires total > 0 && c1 <= c2
    ensures BandOf(ScorePercentage(c1, total)).Rank() <= BandOf(ScorePercentage(c2, total)).Rank()
  {
    ScoreIsMonotone(c1, c2, total);
  }

  /** The threshold boundaries on a ten-question quiz. */
  lemma TenQuestionBoundaries()
    ensures ScorePercentage(9, 10) == Percent(90) && BandOf(Percent(90)).Message() == "Quiz Master!"
    ensures ScorePercentage(8, 10) == Percent(80) && BandOf(Percent(80)).Message() == "Great Job!"
    ensures ScorePercentage(7, 10) == Percent(70) && BandOf(Percent(70)).Message() == "Great Job!"
    ensures ScorePercentage(5, 10) == Percent(50) && BandOf(Percent(50)).Message() == "Good Effort!"
    ensures ScorePercentage(4, 10) == Percent(40) && BandOf(Percent(40)).Message() == "Keep Learning!"
  {
  }

  /** Halves round up: one correct out of eight is 12.5%, shown as 13. */
  lemma HalfRoundsUp()
    ensures ScorePercentage(1, 8) == Percent(13)
  {
  }

  /** `k` is the first position whose answer is for question `qid`. */
  ghost predicate FirstMatchAt(answers: seq<UserAnswer>, qid: int, k: int) {
    && 0 <= k < |answers|
    && answers[k].questionId == qid
    && forall j :: 0 <= j < k ==> answers[j].questionId != qid
  }

  /** Where `userAnswers.find(a => a.questionId === q.id)` stops, if anywhere. */
  function FirstMatchIndex(answers: seq<UserAnswer>, qid: int): (k: Option<nat>)
    ensures k.Some? ==> FirstMatchAt(answers, qid, k.value)
    ensures k.None? <==> forall j :: 0 <= j < |answers| ==> answers[j].questionId != qid
  {
    if answers == [] then None
    else if answers[0].questionId == qid then Some(0)
    else match FirstMatchIndex(answers[1..], qid)
      case None => None
      case Some(k) => Some(k + 1)
  }

  /** When each answer's id is its position, question id `i` finds answer `i`. */
  lemma PositionalIdsFindOwnAnswer(answers: seq<UserAnswer>, i: int)
    requires forall j :: 0 <= j < |answers| ==> answers[j].questionId == j
    requires 0 <= i < |answers|
    ensures FirstMatchIndex(answers, i) == Some(i)
  {
    var k := FirstMatchIndex(answers, i);
    assert answers[i].questionId == i;
  }

  /** `q.options[i]`, which is `undefined` (shown as nothing) outside the list. */
  function OptionText(q: Question, i: int): (t: Option<string>)
    ensures t.Some? <==> 0 <= i < |q.options|
    ensures t.Some? ==> t.value == q.options[i]
  {
    if 0 <= i < |q.options| then Some(q.options[i]) else None
  }

  /** One review row: whether it is drawn as correct, the text shown after
      "Correct:", and, if the "You picked:" line appears, the text shown on it. */
  datatype ReviewRow = ReviewRow(markedCorrect: bool, correctText: Option<string>, youPicked: Option<Option<string>>)

  /** The review row of `q`: it uses the first answer recorded for `q.id`. A
      question with no answer is drawn incorrect without a "You picked" line;
      the line appears exactly when an answer exists and is incorrect. */
  function ReviewOf(q: Question, answers: seq<UserAnswer>): (row: ReviewRow)
    ensures row.correctText == OptionText(q, q.correctAnswerIndex)
    ensures FirstMatchIndex(answers, q.id).None? ==> !row.markedCorrect && row.youPicked.None?
    ensures FirstMatchIndex(answers, q.id).Some? ==>
      var a := answers[FirstMatchIndex(answers, q.id).value];
      && (row.markedCorrect <==> a.isCorrect)
      && (row.youPicked.Some? <==> !a.isCorrect)
      && (row.youPicked.Some? ==> row.youPicked.value == OptionText(q, a.selectedOptionIndex))
  {
    match FirstMatchIndex(answers, q.id)
    case None => ReviewRow(false, OptionText(q, q.correctAnswerIndex), None)
    case Some(k) =>
      var a := answers[k];
      ReviewRow(a.isCorrect, OptionText(q, q.correctAnswerIndex), if a.isCorrect then None else Some(OptionText(q, a.selectedOptionIndex)))
  }

  /** The review list: one row per question, in question order. */
  function Review(questions: seq<Question>, answers: seq<UserAnswer>): (rows: seq<ReviewRow>)
    ensures |rows| == |questions|
    ensures forall i :: 0 <= i < |questions| ==> rows[i] == ReviewOf(questions[i], answers)
  {
    seq(|questions|, i requires 0 <= i < |questions| => ReviewOf(questions[i], answers))
  }

  /** Everything the results screen derives from the finished session. */
  datatype Summary = Summary(correct: nat, score: Score, band: Band, rows: seq<ReviewRow>)

  function Summarize(questions: seq<Question>, answers: seq<UserAnswer>): (sm: Summary)
    ensures sm.correct == |CorrectPositions(answers)|
    ensures sm.score == ScorePercentage(sm.correct, |questions|)
    ensures sm.band == BandOf(sm.score)
    ensures sm.rows == Review(questions, answers) && |sm.rows| == |questions|
    ensures |questions| > 0 && |answers| <= |questions| ==> sm.score.Percent? && 0 <= sm.score.value <= 100
  {
    CorrectCountCountsCorrectAnswers(answers);
    var c := CorrectCount(answers);
    var sc := ScorePercentage(c, |questions|);
    Summary(c, sc, BandOf(sc), Review(questions, answers))
  }
}

=== FILE: session.dfy ===
/** The app's session state and the handlers that move it between phases. */
module Session {
  import opened Wrappers
  import opened QuizTypes
  import opened Generator

  /** The whole mutable state of the app component, one field per `useState`. */
  datatype Session = Session(
    phase: GameState,
    settings: QuizSettings,
    questions: seq<Question>,
    currentQuestionIndex: int,
    userAnswers: seq<UserAnswer>,
    error: string)

  /** The message stored when generation fails. */
  const FailureMessage: string := "Failed to generate quiz. Please try again."

  /** The state before any event: Setup, a blank Medium quiz, nothing loaded, no error. */
  const InitialSession: Session := Session(Setup, QuizSettings("", Medium), [], 0, [], "")

  /** Why `handleAnswer` could not record an answer. */
  datatype AnswerFault = NoCurrentQuestion

  /** The record `handleAnswer` appends for choosing option `option` on `q`. */
  function AnswerFor(q: Question, option: int): UserAnswer {
    UserAnswer(q.id, option, option == q.correctAnswerIndex, 0)
  }

  /** The synchronous part of `handleStartQuiz`: store the settings, enter Loading,
      clear the error; questions, index and answers are left as they were. */
  function StartQuiz(s: Session, settings: QuizSettings): (r: Session)
    ensures r.phase == Loading && r.settings == settings && r.error == ""
    ensures r.questions == s.questions && r.currentQuestionIndex == s.currentQuestionIndex
    ensures r.userAnswers == s.userAnswers
  {
    s.(settings := settings, phase := Loading, error := "")
  }

  /** The part of `handleStartQuiz` after the generator settles: on success the
      questions are stored, play starts at question 0 with no answers; on failure
      the phase is Error with the fixed message and the rest is untouched. */
  function GenerationSettled(s: Session, outcome: Result<seq<Question>, GenerationError>): (r: Session)
    ensures r.settings == s.settings
    ensures outcome.Success? ==>
      && r.phase == Playing && r.questions == outcome.value
      && r.currentQuestionIndex == 0 && r.userAnswers == [] && r.error == s.error
    ensures outcome.Failure? ==>
      && r.phase == Error && r.error == FailureMessage && |r.error| > 0
      && r.questions == s.questions && r.currentQuestionIndex == s.currentQuestionIndex
      && r.userAnswers == s.userAnswers
  {
    match outcome
    case Success(questions) =>
      s.(questions := questions, currentQuestionIndex := 0, userAnswers := [], phase := Playing)
    case Failure(_) =>
      s.(error := FailureMessage, phase := Error)
  }

  /** `handleStartQuiz` as one atomic event: start, then apply the generator's reply. */
  function HandleStartQuiz(s: Session, settings: QuizSettings, reply: Reply): (r: Session)
    ensures r.settings == settings
    ensures reply.Parsed? ==>
      && r.phase == Playing && |r.questions| == |reply.records| && IdsArePositions(r.questions)
      && r.questions == Normalize(reply.records)
      && r.currentQuestionIndex == 0 && r.userAnswers == [] && r.error == ""
    ensures !reply.Parsed? ==>
      && r.phase == Error && r.error == FailureMessage
      && r.questions == s.questions && r.userAnswers == s.userAnswers
      && r.currentQuestionIndex == s.currentQuestionIndex
  {
    GenerationSettled(StartQuiz(s, settings), Generate(reply))
  }

  /** `handleAnswer`: append one record for the current question, correct exactly when
      the option is the question's answer index, leaving every earlier record, the
      phase and the index alone. With no current question the JavaScript throws on
      `undefined`, and nothing is stored. */
  function HandleAnswer(s: Session, option: int): (r: Result<Session, AnswerFault>)
    ensures r.Success? <==> 0 <= s.currentQuestionIndex < |s.questions|
    ensures r.Success? ==>
      var q := s.questions[s.currentQuestionIndex];
      && |r.value.userAnswers| == |s.userAnswers| + 1
      && r.value.userAnswers[..|s.userAnswers|] == s.userAnswers
      && r.value.userAnswers[|s.userAnswers|].questionId == q.id
      && r.value.userAnswers[|s.userAnswers|].selectedOptionIndex == option
      && (r.value.userAnswers[|s.userAnswers|].isCorrect <==> option == q.correctAnswerIndex)
      && r.value.userAnswers[|s.userAnswers|].timeTaken == 0
      && r.value.(userAnswers := s.userAnswers) == s
  {
    if 0 <= s.currentQuestionIndex < |s.questions| then
      Success(s.(userAnswers := s.userAnswers + [AnswerFor(s.questions[s.currentQuestionIndex], option)]))
    else
      Failure(NoCurrentQuestion)
  }

  /** `handleNext`: move to the following question while there is one; at the last
      question (or with none) finish, keeping the index. Nothing else changes. */
  function HandleNext(s: Session): (r: Session)
    ensures s.currentQuestionIndex < |s.questions| - 1 ==>
      r == s.(currentQuestionIndex := s.currentQuestionIndex + 1)
    ensures s.currentQuestionIndex >= |s.questions| - 1 ==> r == s.(phase := Finished)
  {
    if s.currentQuestionIndex < |s.questions| - 1 then
      s.(currentQuestionIndex := s.currentQuestionIndex + 1)
    else
      s.(phase := Finished)
  }

  /** `handlePlayAgain`: back to Setup with no questions, no answers and index 0;
      the settings and the error message are kept. */
  function HandlePlayAgain(s: Session): (r: Session)
    ensures r.phase == Setup && r.questions == [] && r.userAnswers == [] && r.currentQuestionIndex == 0
    ensures r.settings == s.settings && r.error == s.error
  {
    s.(phase := Setup, questions := [], userAnswers := [], currentQuestionIndex := 0)
  }

  /** The Try Again button: only the phase changes, so the error message survives
      until the next start clears it. */
  function TryAgain(s: Session): (r: Session)
    ensures r.phase == Setup && r.error == s.error
    ensures r.(phase := s.phase) == s
  {
    s.(phase := Setup)
  }

  /** The text the error view shows: the stored message, or a fallback when it is empty. */
  function ErrorText(s: Session): (t: string)
    ensures |t| > 0
    ensures s.error != "" ==> t == s.error
  {
    if s.error != "" then s.error else "We couldn't generate a quiz right now."
  }

  /** `handleNext` keeps the index inside a non-empty question list. */
  lemma NextKeepsIndexInRange(s: Session)
    requires 0 <= s.currentQuestionIndex < |s.questions|
    ensures 0 <= HandleNext(s).currentQuestionIndex < |s.questions|
    ensures HandleNext(s).phase == Finished <==> s.currentQuestionIndex == |s.questions| - 1 || s.phase == Finished
  {
  }

  /** Try Again leaves the failure message in place; only the next start clears it. */
  lemma ErrorSurvivesRetryUntilRestart(s: Session, settings: QuizSettings)
    requires s.phase == Error && s.error == FailureMessage
    ensures TryAgain(s).error == FailureMessage
    ensures StartQuiz(TryAgain(s), settings).error == ""
  {
  }

  /** An empty reply lands in Error with a non-empty message. */
  lemma EmptyReplyIsAnError(s: Session, settings: QuizSettings)
    ensures HandleStartQuiz(s, settings, NoText).phase == Error
    ensures |HandleStartQuiz(s, settings, NoText).error| > 0
  {
  }

  /** Answering twice without moving on appends two records: the handler itself
      does not deduplicate. */
  lemma AnswerIsNotDeduplicated(s: Session, option: int)
    requires 0 <= s.currentQuestionIndex < |s.questions|
    ensures var once := HandleAnswer(s, option).value;
      var twice := HandleAnswer(once, option).value;
      && |twice.userAnswers| == |s.userAnswers| + 2
      && twice.userAnswers[|s.userAnswers|] == twice.userAnswers[|s.userAnswers| + 1]
  {
  }
}

=== FILE: setup_screen.dfy ===
/** The setup form: a free-text topic, a difficulty, and the submit guard. */
module SetupScreen {
  import opened Wrappers
  import opened QuizTypes

  /** The characters JavaScript's `String.prototype.trim` strips: the ECMAScript
      WhiteSpace and LineTerminator productions (Unicode category Zs included). */
  predicate IsWhitespace(c: char) {
    || c == '\t' || c == '\n' || c == '\U{B}' || c == '\U{C}' || c == '\r' || c == ' '
    || c == '\U{A0}' || c == '\U{1680}' || ('\U{2000}' <= c <= '\U{200A}')
    || c == '\U{2028}' || c == '\U{2029}' || c == '\U{202F}' || c == '\U{205F}'
    || c == '\U{3000}' || c == '\U{FEFF}'
  }

  /** Every character of `s` is whitespace (vacuously true of the empty string). */
  ghost predicate AllWhitespace(s: string) {
    forall i :: 0 <= i < |s| ==> IsWhitespace(s[i])
  }

  /** `r` occurs in `s` starting at position `a`. */
  ghost predicate SliceAt(s: string, r: string, a: int) {
    0 <= a <= |s| - |r| && r == s[a..a + |r|]
  }

  /** Drops leading whitespace: the result is a suffix of `s` that starts with a
      non-whitespace character, and everything dropped is whitespace. */
  function TrimStart(s: string): (r: string)
    ensures |r| <= |s| && r == s[|s| - |r|..]
    ensures r == [] || !IsWhitespace(r[0])
    ensures AllWhitespace(s[..|s| - |r|])
  {
    if |s| > 0 && IsWhitespace(s[0]) then
      var r := TrimStart(s[1..]);
      assert s[..|s| - |r|] == [s[0]] + s[1..][..|s| - 1 - |r|];
      r
    else s
  }

  /** Drops trailing whitespace: the result is a prefix of `s` that ends with a
      non-whitespace character, and everything dropped is whitespace. */
  function TrimEnd(s: string): (r: string)
    ensures |r| <= |s| && r == s[..|r|]
    ensures r == [] || !IsWhitespace(r[|r| - 1])
    ensures AllWhitespace(s[|r|..])
  {
    if |s| > 0 && IsWhitespace(s[|s| - 1]) then
      var r := TrimEnd(s[..|s| - 1]);
      assert s[|r|..] == s[..|s| - 1][|r|..] + [s[|s| - 1]];
      r
    else s
  }

  /** `topic.trim()`: a contiguous slice of `s` with no whitespace at either end,
      everything around it whitespace; empty exactly when `s` is all whitespace. */
  function Trim(s: string): (r: string)
    ensures exists a :: SliceAt(s, r, a) && AllWhitespace(s[..a]) && AllWhitespace(s[a + |r|..])
    ensures r == [] || (!IsWhitespace(r[0]) && !IsWhitespace(r[|r| - 1]))
    ensures r == [] <==> AllWhitespace(s)
  {
    var t := TrimStart(s);
    var r := TrimEnd(t);
    TrimComposes(s, t, r);
    r
  }

  /** Trimming the start and then the end leaves the slice at `|s| - |t|`, with
      whitespace on both sides, and nothing at all exactly when `s` is all whitespace. */
  lemma TrimComposes(s: string, t: string, r: string)
    requires |t| <= |s| && t == s[|s| - |t|..] && AllWhitespace(s[..|s| - |t|])
    requires t == [] || !IsWhitespace(t[0])
    requires |r| <= |t| && r == t[..|r|] && AllWhitespace(t[|r|..])
    ensures SliceAt(s, r, |s| - |t|)
    ensures AllWhitespace(s[..|s| - |t|]) && AllWhitespace(s[|s| - |t| + |r|..])
    ensures r == [] <==> AllWhitespace(s)
  {
    var a := |s| - |t|;
    assert s[a + |r|..] == t[|r|..];
    if r == [] {
      AllWhitespaceConcat(s[..a], t);
      assert s == s[..a] + t;
    } else {
      assert t[0] == r[0];
      assert s[a] == t[0];
    }
  }

  /** Two all-whitespace strings join into one. */
  lemma AllWhitespaceConcat(x: string, y: string)
    requires AllWhitespace(x) && AllWhitespace(y)
    ensures AllWhitespace(x + y)
  {
    forall i | 0 <= i < |x + y|
      ensures IsWhitespace((x + y)[i])
    {
      if i >= |x| {
        assert (x + y)[i] == y[i - |x|];
      }
    }
  }

  /** The local state of the setup form. */
  datatype SetupForm = SetupForm(topic: string, difficulty: Difficulty)

  /** The form as first shown: an empty topic and Medium difficulty. */
  const InitialForm: SetupForm := SetupForm("", Medium)

  /** `handleSubmit`: calls `onStart` (returns `Some`) exactly when the topic holds a
      non-whitespace character, forwarding the topic untrimmed. */
  function HandleSubmit(form: SetupForm): (started: Option<QuizSettings>)
    ensures started.Some? <==> exists i :: 0 <= i < |form.topic| && !IsWhitespace(form.topic[i])
    ensures started.Some? ==> started.value.topic == form.topic && started.value.difficulty == form.difficulty
  {
    if Trim(form.topic) != [] then Some(QuizSettings(form.topic, form.difficulty)) else None
  }

  /** The submit button's `disabled` attribute. */
  function SubmitDisabled(form: SetupForm): bool {
    Trim(form.topic) == []
  }

  /** The submit control is disabled exactly when `handleSubmit` would not start a quiz. */
  lemma SubmitDisabledMatchesGuard(form: SetupForm)
    ensures SubmitDisabled(form) <==> HandleSubmit(form).None?
  {
  }

  /** A difficulty button click stores that button's difficulty and nothing else. */
  function ClickDifficulty(form: SetupForm, button: nat): (r: SetupForm)
    requires button < |DifficultyChoices|
    ensures r.topic == form.topic
    ensures r.difficulty in DifficultyChoices
    ensures DifficultyPosition(r.difficulty) == button
  {
    form.(difficulty := DifficultyChoices[button])
  }

  /** The form starts at Medium, and a started quiz never has a blank topic. */
  lemma InitialFormIsMediumAndBlocked()
    ensures InitialForm.difficulty == Medium
    ensures SubmitDisabled(InitialForm) && HandleSubmit(InitialForm).None?
  {
  }

  /** A topic of spaces is rejected; surrounding spaces survive into the settings. */
  lemma TopicGuardExamples()
    ensures HandleSubmit(SetupForm("  \t ", Hard)).None?
    ensures HandleSubmit(SetupForm(" Jazz ", Hard)) == Some(QuizSettings(" Jazz ", Hard))
  {
    assert !IsWhitespace(" Jazz "[1]);
  }
}

=== FILE: types.dfy ===
/** The records and enumerations the quiz app passes between its components. */
module QuizTypes {

  /** The four difficulty levels a quiz can be generated at. */
  datatype Difficulty = Easy | Medium | Hard | Expert

  /** The five mutually exclusive phases of a quiz session. */
  datatype GameState = Setup | Loading | Playing | Finished | Error

  /** One multiple-choice question. Nothing ties `correctAnswerIndex` to `options`. */
  datatype Question = Question(
    id: int,
    questionText: string,
    options: seq<string>,
    correctAnswerIndex: int,
    explanation: string)

  /** What the user asked for: a topic and a difficulty. */
  datatype QuizSettings = QuizSettings(topic: string, difficulty: Difficulty)

  /** One recorded response; `timeTaken` is in seconds. */
  datatype UserAnswer = UserAnswer(
    questionId: int,
    selectedOptionIndex: int,
    isCorrect: bool,
    timeTaken: int)

  /** The difficulty buttons of the setup screen, in display order. */
  const DifficultyChoices: seq<Difficulty> := [Easy, Medium, Hard, Expert]

  /** Every phase, in the order the type lists them. */
  const GameStates: seq<GameState> := [Setup, Loading, Playing, Finished, Error]

  /** Where a difficulty sits among the setup screen's buttons: each has exactly one button. */
  function DifficultyPosition(d: Difficulty): (k: nat)
    ensures k < |DifficultyChoices| && DifficultyChoices[k] == d
    ensures forall j :: 0 <= j < |DifficultyChoices| && DifficultyChoices[j] == d ==> j == k
  {
    match d
    case Easy => 0
    case Medium => 1
    case Hard => 2
    case Expert => 3
  }

  /** Where a phase sits in the enumeration: each phase occurs exactly once. */
  function GameStatePosition(g: GameState): (k: nat)
    ensures k < |GameStates| && GameStates[k] == g
    ensures forall j :: 0 <= j < |GameStates| && GameStates[j] == g ==> j == k
  {
    match g
    case Setup => 0
    case Loading => 1
    case Playing => 2
    case Finished => 3
    case Error => 4
  }

  /** Difficulty is a closed set of exactly four values, each listed once. */
  lemma DifficultyIsClosedSetOfFour()
    ensures |DifficultyChoices| == 4
    ensures forall i, j :: 0 <= i < j < |DifficultyChoices| ==> DifficultyChoices[i] != DifficultyChoices[j]
    ensures forall d: Difficulty :: d in DifficultyChoices
  {
    forall d: Difficulty ensures d in DifficultyChoices {
      var k := DifficultyPosition(d);
    }
  }

  /** The game phase is a closed set of exactly five values, each listed once. */
  lemma GameStateIsClosedSetOfFive()
    ensures |GameStates| == 5
    ensures forall i, j :: 0 <= i < j < |GameStates| ==> GameStates[i] != GameStates[j]
    ensures forall g: GameState :: g in GameStates
  {
    forall g: GameState ensures g in GameStates {
      var k := GameStatePosition(g);
    }
  }
}

=== FILE: wrappers.dfy ===
/** Option and result wrappers shared by the quiz model. */
module Wrappers {

  /** A value that may be absent: JavaScript's `null` / `undefined`. */
  datatype Option<+T> = None | Some(value: T)

  /** The outcome of an operation that either produces a value or throws. */
  datatype Result<+T, +E> = Success(value: T) | Failure(error: E)
}
